=== FILE: README.md ===
# emperorbot, modelled in Dafny

emperorbot is a Discord bot with two jobs. Its `Announcements` cog wakes up
periodically and walks the configured announcement rules. Each rule is a
5-tuple `[interval_days, weekday, channel_name, message, link]`. A rule whose
interval is in use fires when the interval divides the day count. Otherwise a
rule whose weekday is in use fires on that weekday. A rule that fires sends
its message, then its link, to the named channel. Its `Language` cog splits
every incoming message on single spaces and replies with a fixed GIF link for
every piece that is a line of the banned-word file.

This project models both decisions as pure functions over plain data, and
proves what they do:

- `wrappers.dfy` (`Wrappers`): `Option` and `Result`, used for Python's `None`
  and for raised exceptions.
- `pyvalues.dfy` (`PyValues`): the Python semantics the bot depends on.
  - `FloorMod` is `%`, with the sign of the divisor.
  - `ToInt` is `int()` on a configuration scalar. `EqualsInt` is raw `==` between an int and a scalar.
  - `Split` and `Join` are `str.split(sep)` and `sep.join`.
- `announcements.dfy` (`Announcements`): one announce pass.
  - `Decide` decides a single rule. `Evaluate` is the whole pass.
  - `Send` sends one rule's message and link.
  - `Announce` is one tick, with evaluation and sending interleaved as the loop runs them.
  - `AnnounceAsWritten` is the tick with the day count pinned to 6, as on line 37.
- `language.dfy` (`Language`): `LoadSwears` builds the word list. `OnMessage`
  is the per-message filter.

Modelling choices:

- The day count and the weekday are parameters. The channel map is a Dafny
  `map`. The messaging client is a `Host` value, which holds the channel ids
  `get_channel` can resolve and a function giving the outcome of each
  `channel.send`. Each outcome is delivered, an HTTPException, or another
  exception.
- Interval and weekday fields are YAML scalars (`Int`, `Bool`, `Text`). This
  keeps the difference between `int(field) != -1` (lines 35 and 40) and the
  raw `today.weekday() == field` (line 41). A weekday written as the string
  `"3"` passes the first test but never equals a weekday.
- An `int()` that raises, and a zero interval (ZeroDivisionError on line 38),
  are `Failure` results. They end the pass, as the exception ends the loop.
- A send that raises also ends the pass. This covers a failed primary
  message, an unknown channel (`None.send`), and a link error that is not an
  HTTPException.

Behaviour of the code that the model keeps as it is:

- Every piece of a message is checked. A message with a listed word twice gets
  two replies, not one.
- Pieces are compared exactly. There is no lower-casing and no stripping of
  punctuation.
- The split is on `' '`, not on whitespace in general.
- The tick does not skip its first run and does not reload the configuration.
- The interval test uses the constant 6, not the days since the epoch.
- An unknown channel, or a failed primary send, ends the whole pass. The
  remaining rules are not evaluated.

## Model

| member | source | states |
|---|---|---|
| PyValues.FloorMod | emperorbot.py:38 | Python's `d % k` takes the sign of the divisor, is smaller than the divisor in magnitude, and differs from `d` by a multiple of `k` |
| PyValues.FloorModZeroIffDivides | emperorbot.py:38 | the test `d % k == 0` holds exactly when `k` divides `d`, for negative intervals and negative day counts too |
| PyValues.ParseInt | emperorbot.py:35 | `int()` on a string succeeds exactly when the text is an optional sign followed by at least one digit, so a lone "+" or "-" raises; a negative result comes from a leading minus |
| PyValues.ParsePaddedText | emperorbot.py:35 | `int()` also reads text Python would not print: leading zeros and an explicit sign give the same number (`int("007") == 7`, `int("+7") == 7`, `int("-0") == 0`) |
| PyValues.ParseShowRoundTrip | emperorbot.py:35 | `int(str(n)) == n` for every integer, so an interval written as a quoted number is read back as that number |
| PyValues.ToIntReadsPrintedText | emperorbot.py:35 | `int()` on a string field holding a printed integer gives back that integer |
| PyValues.EqualsInt | emperorbot.py:41 | whatever raw `==` accepts as equal to the weekday, `int()` reads as that same number |
| PyValues.EqualsIntVersusToInt | emperorbot.py:41 | raw `==` against the weekday agrees with `int()` for integer and boolean fields, and never holds for a string field |
| PyValues.Split | emperorbot.py:65 | `split(sep)` always gives at least one piece, and no piece contains the separator |
| PyValues.SplitCount | emperorbot.py:65 | `split(sep)` gives exactly one more piece than the text has separators |
| PyValues.JoinSplit | emperorbot.py:74 | joining the pieces of a split with the separator gives back the original text |
| PyValues.SplitJoin | emperorbot.py:74 | splitting a join of separator-free pieces gives back exactly those pieces, empty ones included |
| Language.SplitAtSeparator | emperorbot.py:65 | the text on either side of one separator splits independently, and the two piece lists are concatenated |
| Announcements.Decide | emperorbot.py:35-42 | evaluation raises exactly for an unreadable interval, a zero interval, or an unused interval with an unreadable weekday; a rule fires only when its interval is readable, and when the interval is unused only on a matching, in-use weekday |
| Announcements.IntervalFiresIffDivides | emperorbot.py:35-39 | a rule with an in-use, non-zero interval fires exactly when the interval divides the day count |
| Announcements.IntervalIgnoresWeekday | emperorbot.py:35-40 | while the interval is in use, the weekday field and today's weekday have no influence on the rule, whether it fires or not |
| Announcements.BothUnusedNeverFires | emperorbot.py:35-42 | a rule with both the interval and the weekday set to -1 never fires, on any day |
| Announcements.WeekdayFiresIffEqual | emperorbot.py:40-42 | a weekday rule fires exactly when today's weekday equals the raw field, independently of the day count; a string field never fires |
| Announcements.PinnedDayDivisors | emperorbot.py:37-38 | on the pinned day 6 the test `6 % k == 0` holds exactly for the eight divisors ±1, ±2, ±3 and ±6 |
| Announcements.PinnedDayIntervalsThatFire | emperorbot.py:35-38 | on the pinned day 6 a rule fires by interval exactly for the in-use intervals 1, ±2, ±3 and ±6 (-1 marks the interval unused) |
| Announcements.EvaluateFrom | emperorbot.py:33-42 | the pass requests only due rules, in strictly increasing rule order, each with its own channel, message and link; it halts only at a rule whose evaluation raises |
| Announcements.EvaluateFromComplete | emperorbot.py:33-42 | every due rule before the halt is requested |
| Announcements.EvaluateExactlyDue | emperorbot.py:33-42 | a pass requests exactly the due rules it reaches, at most one request per rule and in rule order; it reaches the end iff no rule raises |
| Announcements.Send | emperorbot.py:44-53 | at most two sends, both to the resolved channel. The message goes first and the link second. The link is sent iff the message was delivered. The send succeeds iff the channel resolves, the message is delivered and the link does not raise a non-HTTP error |
| Announcements.UnknownChannelFails | emperorbot.py:47-49 | an unresolved channel name makes the send raise before anything is sent |
| Announcements.PrimaryFailurePropagates | emperorbot.py:49 | a failing primary message escapes, and the link is never attempted |
| Announcements.LinkHttpErrorSwallowed | emperorbot.py:50-53 | after a delivered message, an HTTPException from the link is swallowed and the send succeeds with both attempts made |
| Announcements.AnnounceFrom | emperorbot.py:31-42 | a tick that ends in an exception names the rule that raised it and the reason: the rule's evaluation failed, or it was due and its send raised |
| Announcements.Perform | emperorbot.py:39 | sending a list of requests in order succeeds iff every send succeeds; otherwise the reported failure is that of the first failing send, and at most two calls per request are made |
| Announcements.PerformAppend | emperorbot.py:33-42 | sending `xs + ys` makes all of the calls for `xs` first, in order, and reaches `ys` only when no send of `xs` raised |
| Announcements.AnnounceFromIsEvaluateThenSend | emperorbot.py:33-42 | interleaving evaluation and sending makes the same calls, and ends with the same exception, as evaluating every rule first and sending afterwards |
| Announcements.AnnounceIsEvaluateThenSend | emperorbot.py:31-42 | a whole tick equals its evaluation pass followed by sending the requests in order |
| Announcements.AnnounceAsWritten | emperorbot.py:31-42 | as written, a tick is the evaluation pass on the pinned day 6 followed by the in-order sends of what it requests |
| Announcements.AsWrittenIgnoresDate | emperorbot.py:36-37 | as written, any two dates with the same weekday give the same tick |
| Announcements.WeeklyRuleSilentAsWritten | emperorbot.py:36-38 | as written, a rule with interval 7 never sends anything, whatever the date |
| Announcements.WeeklyRuleFiresEverySeventhDay | emperorbot.py:36-39 | with the real day count, a weekly rule on a working channel sends its message and link exactly on days divisible by 7 |
| Language.LoadSwears | emperorbot.py:74 | the word list has one entry per newline plus one; no entry holds a newline; joining them with newlines gives back the text read from the file |
| Language.Replies | emperorbot.py:65-67 | every reply is the GIF link, and there is exactly one reply per token position whose token is in the word list |
| Language.OnMessage | emperorbot.py:63-67 | a message gets one reply per space-separated piece that is exactly a listed word, and at most one more reply than it has spaces |
| Language.RepliesConcat | emperorbot.py:65-67 | the replies to two token lists are the replies to each, so no match stops the scan |
| Language.MessageConcat | emperorbot.py:65-67 | the replies to `a + " " + b` are the replies to `a` followed by the replies to `b` |
| Language.SingleToken | emperorbot.py:66 | a space-free message gets a reply iff it is literally a listed word |
| Language.RepeatedWordAnsweredEachTime | emperorbot.py:65-67 | a listed word that occurs twice gets two replies |
| Language.NoNormalisation | emperorbot.py:66 | "BAD!!" gets no reply from the list ["bad"] while "bad" gets one: no case folding, no punctuation stripping |
| Language.FirstPieceEmptyIff | emperorbot.py:65 | the first piece of a split is empty iff the text is empty or starts with the separator |
| Language.LaterPieceEmptyIff | emperorbot.py:65 | some later piece is empty iff the text ends with the separator or has two separators in a row |
| Language.EmptyPieceIff | emperorbot.py:65 | a split yields an empty piece iff the text is empty, starts or ends with the separator, or has two in a row |
| Language.TrailingNewlineListsEmptyWord | emperorbot.py:74 | a word file ending in a newline puts the empty word in the list |
| Language.EmptyWordMatchesGaps | emperorbot.py:65-66 | with the empty word listed, a message that is empty, starts or ends with a space, or has two spaces in a row gets a reply |
| Language.TrailingNewlineFlagsDoubleSpace | emperorbot.py:65-74 | with a newline-terminated word file, any message with two spaces in a row gets a reply |
| Language.DropBlank | emperorbot.py:74 | dropping blank entries keeps exactly the non-empty entries |
| Language.LoadSwearsSkippingBlank | emperorbot.py:74 | the corrected loader lists exactly the non-empty lines of the file, and never the empty word |
| Language.SkippingBlankAnswersOnlyWords | emperorbot.py:65-74 | with the corrected loader, a message gets one reply per non-empty piece that is a line of the file, and runs of spaces get none |

## Findings

| source | as written | input that shows it | evidently intended | confidence | as-written member | corrected member |
|---|---|---|---|---|---|---|
| emperorbot.py:36-38 | `d = 6` overwrites the day count, so the interval test ignores the date | the rule `[7, -1, general, msg, link]`: it never fires on any date | test the interval against the days since the epoch | high, not executed | Announcements.WeeklyRuleSilentAsWritten | Announcements.WeeklyRuleFiresEverySeventhDay |
| emperorbot.py:74 | `split("\n")` keeps the empty line after a final newline, so `""` is a banned word | word file `"darn\n"`, message `"hi  there"`: one warning, though no listed word occurs | blank lines are not words | medium, not executed | Language.TrailingNewlineFlagsDoubleSpace | Language.SkippingBlankAnswersOnlyWords |

The `Announce` tick takes its day count as a parameter. This makes it the
corrected definition for the first finding. `AnnounceAsWritten` is the code as
it stands. The filter takes its word list as a parameter, so it works with
either loader.

## Left out

- The Discord client is not modelled. This covers `commands.Bot`, the
  10-second `tasks.loop` schedule, `announce.start`, `cog_unload`,
  `wait_until_ready` and event delivery. These are library I/O. The model
  covers one tick and one message.
- What `tasks.loop` does after a tick raises is not modelled. This is library
  behaviour. Most exceptions stop the loop, and later ticks never run.
  Connection errors instead make the loop wait and re-run the whole pass,
  which sends again the announcements of the rules before the failing one.
- `datetime.today()` and `utcfromtimestamp(0)` are not modelled. The day count
  and weekday are inputs. The timezone mismatch between the two calls cannot
  be modelled.
- `today` is read again for every rule, so a pass that crosses midnight could
  see two weekdays. The model uses one weekday per pass.
- `load_config` is not modelled: the YAML parsing, file handling, the
  `DISCORD_TOKEN` variable and the `sys.argv` paths are I/O and bootstrap.
  Malformed configuration shapes are also left out: a missing section, a tuple
  shorter than five fields, and channel ids that are not integers.
- Reading the word file is not modelled (emperorbot.py:72-73 and 75).
  `LoadSwears` starts from the text `read()` returns. Text-mode `open`
  already turns "\r\n" into "\n" and decodes with the locale's encoding.
- Floating-point and null scalars are not modelled. Only integers, booleans and
  strings are.
- PyValues.ParseInt: accepts only a sign and ASCII digits. Python's `int()`
  also strips surrounding whitespace, allows `_` between digits and accepts
  non-ASCII digits, so the model rejects some strings Python reads.
- Announcements.Host: a send's outcome depends only on the channel and the
  text. A client whose second identical send ends differently from the first
  is not represented.
- Language.OnMessage: every warning send is assumed to return. In the code, a
  warning send that raises ends the handler, and no later piece gets a reply.
  The handler also runs on the bot's own messages; the model does not say who
  sent the message.

=== FILE: announcements.dfy ===
/** The announcement scheduler: one pass over the configured rules decides
    which are due and sends each due rule's message, then its link, to the
    rule's channel. */
module Announcements {
  import opened Wrappers
  import opened PyValues

  /** The value that marks an interval or weekday field as unused. */
  const Unused: int := -1

  /** The day count the pass actually uses: the computed number of days since
      the Unix epoch is overwritten by this constant before the interval test. */
  const PinnedDay: int := 6

  /** `datetime.weekday()`: Monday is 0, Sunday is 6. */
  type Weekday = w: int | 0 <= w <= 6

  /** One configured announcement, the 5-tuple
      `[interval_days, weekday, channel_name, message, link]`. The first two
      fields are kept as the configuration loader produced them, because the
      pass converts them with `int()` in one place and compares them raw in
      another. */
  datatype Rule = Rule(interval: Scalar, weekday: Scalar, channel: string, message: string, link: string)

  /** What a due rule asks to be sent. */
  datatype Request = Request(channel: string, message: string, link: string)

  /** A request together with the position of the rule that produced it. */
  datatype Dispatch = Dispatch(rule: nat, request: Request)

  /** Why evaluating a rule raises: `int()` rejects the interval field
      (ValueError), the interval is zero (ZeroDivisionError), or `int()` rejects
      the weekday field. */
  datatype RuleError = BadInterval | ZeroInterval | BadWeekday

  function RequestOf(r: Rule): Request {
    Request(r.channel, r.message, r.link)
  }

  /** Whether rule `r` is due on day `d` (days since the epoch) and weekday
      `wd`; a Failure is the exception the evaluation raises. */
  function Decide(r: Rule, d: int, wd: Weekday): (res: Result<bool, RuleError>)
    ensures ToInt(r.interval).None? ==> res == Failure(BadInterval)
    ensures ToInt(r.interval) == Some(0) ==> res == Failure(ZeroInterval)
    ensures ToInt(r.interval) == Some(Unused) && ToInt(r.weekday).None? ==> res == Failure(BadWeekday)
    ensures res.Failure? ==>
              ToInt(r.interval).None? || ToInt(r.interval) == Some(0) ||
              (ToInt(r.interval) == Some(Unused) && ToInt(r.weekday).None?)
    ensures res == Success(true) ==> ToInt(r.interval).Some?
    ensures res == Success(true) && ToInt(r.interval).value == Unused ==>
              EqualsInt(r.weekday, wd) && ToInt(r.weekday) != Some(Unused)
  {
    match ToInt(r.interval)
    case None => Failure(BadInterval)
    case Some(k) =>
      if k != Unused then
        if k == 0 then Failure(ZeroInterval) else Success(FloorMod(d, k) == 0)
      else
        match ToInt(r.weekday)
        case None => Failure(BadWeekday)
        case Some(w) => Success(w != Unused && EqualsInt(r.weekday, wd))
  }

  /** An interval rule fires iff its interval divides the day count, whatever
      the signs of the two. */
  lemma IntervalFiresIffDivides(r: Rule, d: int, wd: Weekday, k: int)
    requires ToInt(r.interval) == Some(k) && k != Unused && k != 0
    ensures Decide(r, d, wd).Success?
    ensures Decide(r, d, wd).value <==> Divides(k, d)
  {
    FloorModZeroIffDivides(d, k);
  }

  /** While the interval is in use the weekday field and the weekday are never
      consulted, whether the rule fires or not. */
  lemma IntervalIgnoresWeekday(r: Rule, d: int, wd: Weekday, other: Scalar, wd': Weekday)
    requires ToInt(r.interval).Some? && ToInt(r.interval).value != Unused
    ensures Decide(r, d, wd) == Decide(r.(weekday := other), d, wd')
  {
  }

  /** A rule with both fields unused never fires, on any day. */
  lemma BothUnusedNeverFires(r: Rule, d: int, wd: Weekday)
    requires ToInt(r.interval) == Some(Unused) && ToInt(r.weekday) == Some(Unused)
    ensures Decide(r, d, wd) == Success(false)
  {
  }

  /** A weekday rule fires iff the weekday equals the RAW field; the day count
      plays no part. A field written as the string "3" passes the `int()` test
      but never equals a weekday. */
  lemma WeekdayFiresIffEqual(r: Rule, d: int, d': int, wd: Weekday)
    requires ToInt(r.interval) == Some(Unused)
    requires ToInt(r.weekday).Some? && ToInt(r.weekday).value != Unused
    ensures Decide(r, d, wd).Success?
    ensures Decide(r, d, wd).value <==> EqualsInt(r.weekday, wd)
    ensures Decide(r, d, wd) == Decide(r, d', wd)
    ensures r.weekday.Text? ==> !Decide(r, d, wd).value
    ensures r.weekday.Int? ==> (Decide(r, d, wd).value <==> r.weekday.n == wd)
  {
  }

  /** On the pinned day 6 an interval rule fires iff its interval is one of
      the divisors of 6, positive or negative. */
  lemma PinnedDayDivisors(k: int)
    requires k != 0
    ensures FloorMod(PinnedDay, k) == 0 <==> k in {1, -1, 2, -2, 3, -3, 6, -6}
  {
    if k > 6 {
      assert FloorMod(PinnedDay, k) == 6;
    } else if k < -6 {
      assert FloorMod(PinnedDay, k) == 6 + k;
    }
  }

  /** On the pinned day 6, a rule whose interval is in use fires exactly when
      that interval is 1, 2, 3 or 6, or minus one of 2, 3 or 6 (-1 marks the
      interval as unused and sends the rule to the weekday test instead). */
  lemma PinnedDayIntervalsThatFire(r: Rule, wd: Weekday, k: int)
    requires ToInt(r.interval) == Some(k) && k != Unused && k != 0
    ensures Decide(r, PinnedDay, wd) == Success(k in {1, 2, -2, 3, -3, 6, -6})
  {
    PinnedDayDivisors(k);
  }

  /* ---------------------------------------------------------------------- */
  /* One evaluation pass                                                     */
  /* ---------------------------------------------------------------------- */

  /** Where a pass stopped because evaluating a rule raised. */
  datatype Halt = Halt(index: nat, error: RuleError)

  /** The dispatches one pass requests, in rule order, and the rule whose
      evaluation raised, if any (later rules are not evaluated). */
  datatype Plan = Plan(dispatches: seq<Dispatch>, halt: Option<Halt>)

  /** The rules a pass gets through: all of them, or those before the halt. */
  function Reached(rules: seq<Rule>, p: Plan): nat {
    if p.halt.Some? && p.halt.value.index < |rules| then p.halt.value.index else |rules|
  }

  /** The dispatches of `ds` point at rules in `[lo, hi)` in strictly
      increasing order and carry exactly those rules' fields. */
  ghost predicate InOrderFrom(rules: seq<Rule>, ds: seq<Dispatch>, lo: nat, hi: nat) {
    && hi <= |rules|
    && (forall k :: 0 <= k < |ds| ==> lo <= ds[k].rule < hi && ds[k].request == RequestOf(rules[ds[k].rule]))
    && (forall k, l :: 0 <= k < l < |ds| ==> ds[k].rule < ds[l].rule)
  }

  /** The pass from rule `i` on. */
  function EvaluateFrom(rules: seq<Rule>, i: nat, d: int, wd: Weekday): (p: Plan)
    requires i <= |rules|
    ensures p.halt.Some? ==> i <= p.halt.value.index < |rules|
    ensures p.halt.Some? ==> Decide(rules[p.halt.value.index], d, wd) == Failure(p.halt.value.error)
    ensures forall j :: i <= j < Reached(rules, p) ==> Decide(rules[j], d, wd).Success?
    ensures InOrderFrom(rules, p.dispatches, i, Reached(rules, p))
    ensures forall k :: 0 <= k < |p.dispatches| ==> Decide(rules[p.dispatches[k].rule], d, wd) == Success(true)
    decreases |rules| - i
  {
    if i == |rules| then Plan([], None)
    else
      match Decide(rules[i], d, wd)
      case Failure(e) => Plan([], Some(Halt(i, e)))
      case Success(fire) =>
        var rest := EvaluateFrom(rules, i + 1, d, wd);
        if fire then
          InOrderCons(rules, rest.dispatches, i, Reached(rules, rest));
          Plan([Dispatch(i, RequestOf(rules[i]))] + rest.dispatches, rest.halt)
        else
          Plan(rest.dispatches, rest.halt)
  }

  /** Putting rule `i` in front of dispatches for rules after `i` keeps them
      in order. */
  lemma InOrderCons(rules: seq<Rule>, ds: seq<Dispatch>, i: nat, hi: nat)
    requires i < hi <= |rules|
    requires InOrderFrom(rules, ds, i + 1, hi)
    ensures InOrderFrom(rules, [Dispatch(i, RequestOf(rules[i]))] + ds, i, hi)
  {
    var all := [Dispatch(i, RequestOf(rules[i]))] + ds;
    forall k | 0 <= k < |all|
      ensures i <= all[k].rule < hi && all[k].request == RequestOf(rules[all[k].rule])
    {
      if k > 0 { assert all[k] == ds[k - 1]; }
    }
    forall k, l | 0 <= k < l < |all|
      ensures all[k].rule < all[l].rule
    {
      assert all[l] == ds[l - 1];
      if k > 0 { assert all[k] == ds[k - 1]; }
    }
  }

  /** One evaluation pass over all rules on day `d` and weekday `wd`. */
  function Evaluate(rules: seq<Rule>, d: int, wd: Weekday): Plan {
    EvaluateFrom(rules, 0, d, wd)
  }

  /** A rule that evaluates without raising is dispatched, when due, ahead of
      whatever the rest of the pass requests. */
  lemma EvaluateFromStep(rules: seq<Rule>, i: nat, d: int, wd: Weekday)
    requires i < |rules| && Decide(rules[i], d, wd).Success?
    ensures var rest := EvaluateFrom(rules, i + 1, d, wd);
            EvaluateFrom(rules, i, d, wd) ==
            Plan((if Decide(rules[i], d, wd).value then [Dispatch(i, RequestOf(rules[i]))] else []) + rest.dispatches,
                 rest.halt)
  {
  }

  /** A dispatch for rule `j` somewhere in `tail` is still there behind `head`. */
  lemma DispatchedBehind(head: seq<Dispatch>, tail: seq<Dispatch>, j: nat)
    requires exists k :: 0 <= k < |tail| && tail[k].rule == j
    ensures exists k :: 0 <= k < |head + tail| && (head + tail)[k].rule == j
  {
    var k :| 0 <= k < |tail| && tail[k].rule == j;
    assert (head + tail)[|head| + k] == tail[k];
  }

  /** Completeness: every rule the pass reaches and that is due is dispatched. */
  lemma {:induction false} EvaluateFromComplete(rules: seq<Rule>, i: nat, d: int, wd: Weekday, j: nat)
    requires i <= |rules|
    requires i <= j < Reached(rules, EvaluateFrom(rules, i, d, wd))
    requires Decide(rules[j], d, wd) == Success(true)
    ensures exists k :: 0 <= k < |EvaluateFrom(rules, i, d, wd).dispatches| && EvaluateFrom(rules, i, d, wd).dispatches[k].rule == j
    decreases |rules| - i
  {
    var p := EvaluateFrom(rules, i, d, wd);
    assert i < |rules|;
    assert Decide(rules[i], d, wd).Success?;
    EvaluateFromStep(rules, i, d, wd);
    var rest := EvaluateFrom(rules, i + 1, d, wd);
    var head := if Decide(rules[i], d, wd).value then [Dispatch(i, RequestOf(rules[i]))] else [];
    assert p.dispatches == head + rest.dispatches && p.halt == rest.halt;
    if j == i {
      assert p.dispatches[0].rule == j;
    } else {
      EvaluateFromComplete(rules, i + 1, d, wd, j);
      DispatchedBehind(head, rest.dispatches, j);
    }
  }

  /** The pass in one statement: it requests exactly the due rules among those
      it reaches, at most once each, in rule order, with each rule's own
      channel, message and link; it stops only at a rule whose evaluation
      raises. */
  lemma EvaluateExactlyDue(rules: seq<Rule>, d: int, wd: Weekday)
    ensures |Evaluate(rules, d, wd).dispatches| <= |rules|
    ensures InOrderFrom(rules, Evaluate(rules, d, wd).dispatches, 0, Reached(rules, Evaluate(rules, d, wd)))
    ensures forall j :: 0 <= j < Reached(rules, Evaluate(rules, d, wd)) ==>
              (Decide(rules[j], d, wd) == Success(true) <==>
               exists k :: 0 <= k < |Evaluate(rules, d, wd).dispatches| && Evaluate(rules, d, wd).dispatches[k].rule == j)
    ensures Evaluate(rules, d, wd).halt.None? <==> forall j :: 0 <= j < |rules| ==> Decide(rules[j], d, wd).Success?
  {
    var p := Evaluate(rules, d, wd);
    forall j | 0 <= j < Reached(rules, p) && Decide(rules[j], d, wd) == Success(true)
      ensures exists k :: 0 <= k < |p.dispatches| && p.dispatches[k].rule == j
    {
      EvaluateFromComplete(rules, 0, d, wd, j);
    }
    StrictlyIncreasingBounded(p.dispatches, |rules|);
  }

  /** A strictly increasing sequence of rule positions below `n` has at most
      `n` entries. */
  lemma {:induction false} StrictlyIncreasingBounded(ds: seq<Dispatch>, n: nat)
    requires forall k :: 0 <= k < |ds| ==> ds[k].rule < n
    requires forall k, l :: 0 <= k < l < |ds| ==> ds[k].rule < ds[l].rule
    ensures |ds| <= n
    decreases |ds|
  {
    if |ds| > 0 {
      var last := ds[|ds| - 1].rule;
      StrictlyIncreasingBounded(ds[..|ds| - 1], last);
    }
  }

  /* ---------------------------------------------------------------------- */
  /* Sending one announcement                                                */
  /* ---------------------------------------------------------------------- */

  /** A platform channel identifier, as written in the `channels` section. */
  type ChannelId = int

  /** How one `channel.send(text)` call ends: it returns, it raises an
      HTTPException, or it raises some other exception. */
  datatype Delivery = Delivered | HttpError | OtherError

  /** The messaging client as the bot sees it: which channel identifiers
      `get_channel` can resolve, and how a send to a channel ends. */
  datatype Host = Host(visible: set<ChannelId>, deliver: (ChannelId, string) -> Delivery)

  /** One `channel.send` call the bot made. */
  datatype Attempt = Attempt(channel: ChannelId, text: string)

  /** Why a send raises: the name did not resolve to a channel (the send is
      then made on None), the primary message raised, or the link raised
      something other than an HTTPException. */
  datatype SendError = NoSuchChannel(name: string) | PrimaryFailed(cause: Delivery) | LinkRaised

  /** The calls one send made, in order, and the exception it let escape. */
  datatype SendReport = SendReport(attempts: seq<Attempt>, error: Option<SendError>)

  /** `get_channel(channels.get(name))`: None for a name missing from the map
      and for an identifier the client does not know. */
  function Resolve(channels: map<string, ChannelId>, host: Host, name: string): Option<ChannelId> {
    if name in channels && channels[name] in host.visible then Some(channels[name]) else None
  }

  /** Send one request: the message first, whose failure escapes, then the
      link, whose HTTPException is swallowed. */
  function Send(channels: map<string, ChannelId>, host: Host, req: Request): (s: SendReport)
    ensures |s.attempts| <= 2
    ensures forall a :: a in s.attempts ==> Resolve(channels, host, req.channel) == Some(a.channel)
    ensures |s.attempts| >= 1 ==> s.attempts[0].text == req.message
    ensures |s.attempts| == 2 ==> s.attempts[1].text == req.link
    ensures |s.attempts| == 2 <==>
              Resolve(channels, host, req.channel).Some? &&
              host.deliver(Resolve(channels, host, req.channel).value, req.message) == Delivered
    ensures s.error.None? <==>
              Resolve(channels, host, req.channel).Some? &&
              host.deliver(Resolve(channels, host, req.channel).value, req.message) == Delivered &&
              host.deliver(Resolve(channels, host, req.channel).value, req.link) != OtherError
  {
    match Resolve(channels, host, req.channel)
    case None => SendReport([], Some(NoSuchChannel(req.channel)))
    case Some(c) =>
      var first := host.deliver(c, req.message);
      if first != Delivered then
        SendReport([Attempt(c, req.message)], Some(PrimaryFailed(first)))
      else
        var both := [Attempt(c, req.message), Attempt(c, req.link)];
        if host.deliver(c, req.link) == OtherError then SendReport(both, Some(LinkRaised))
        else SendReport(both, None)
  }

  /** A name that does not resolve makes the send raise before anything is
      sent. */
  lemma UnknownChannelFails(channels: map<string, ChannelId>, host: Host, req: Request)
    requires req.channel !in channels || channels[req.channel] !in host.visible
    ensures Send(channels, host, req) == SendReport([], Some(NoSuchChannel(req.channel)))
  {
  }

  /** A failing primary message escapes, and the link is never attempted. */
  lemma PrimaryFailurePropagates(channels: map<string, ChannelId>, host: Host, req: Request)
    requires req.channel in channels && channels[req.channel] in host.visible
    requires host.deliver(channels[req.channel], req.message) != Delivered
    ensures Send(channels, host, req).attempts == [Attempt(channels[req.channel], req.message)]
    ensures Send(channels, host, req).error == Some(PrimaryFailed(host.deliver(channels[req.channel], req.message)))
  {
  }

  /** Once the primary message is delivered, an HTTPException from the link is
      swallowed and the send succeeds. */
  lemma LinkHttpErrorSwallowed(channels: map<string, ChannelId>, host: Host, req: Request)
    requires req.channel in channels && channels[req.channel] in host.visible
    requires host.deliver(channels[req.channel], req.message) == Delivered
    requires host.deliver(channels[req.channel], req.link) == HttpError
    ensures Send(channels, host, req).error.None?
    ensures Send(channels, host, req).attempts ==
              [Attempt(channels[req.channel], req.message), Attempt(channels[req.channel], req.link)]
  {
  }

  /* ---------------------------------------------------------------------- */
  /* One tick: evaluation interleaved with sending                           */
  /* ---------------------------------------------------------------------- */

  /** The exception that ends a tick early: a rule's evaluation raised, or the
      send for rule `rule` raised. */
  datatype TickError = RuleRaised(halt: Halt) | SendRaised(rule: nat, error: SendError)

  /** All `channel.send` calls of one tick, in order, and the exception that
      ended it, if any. */
  datatype TickReport = TickReport(attempts: seq<Attempt>, error: Option<TickError>)

  /** The announce loop from rule `i` on, as it runs: each rule is evaluated
      and, when due, sent before the next rule is looked at; the first
      exception ends the tick. */
  function AnnounceFrom(rules: seq<Rule>, i: nat, d: int, wd: Weekday,
                        channels: map<string, ChannelId>, host: Host): (t: TickReport)
    requires i <= |rules|
    ensures t.error.Some? && t.error.value.RuleRaised? ==>
              i <= t.error.value.halt.index < |rules| &&
              Decide(rules[t.error.value.halt.index], d, wd) == Failure(t.error.value.halt.error)
    ensures t.error.Some? && t.error.value.SendRaised? ==>
              i <= t.error.value.rule < |rules| &&
              Decide(rules[t.error.value.rule], d, wd) == Success(true) &&
              Send(channels, host, RequestOf(rules[t.error.value.rule])).error == Some(t.error.value.error)
    decreases |rules| - i
  {
    if i == |rules| then TickReport([], None)
    else
      match Decide(rules[i], d, wd)
      case Failure(e) => TickReport([], Some(RuleRaised(Halt(i, e))))
      case Success(fire) =>
        if !fire then AnnounceFrom(rules, i + 1, d, wd, channels, host)
        else
          var s := Send(channels, host, RequestOf(rules[i]));
          if s.error.Some? then TickReport(s.attempts, Some(SendRaised(i, s.error.value)))
          else
            var rest := AnnounceFrom(rules, i + 1, d, wd, channels, host);
            TickReport(s.attempts + rest.attempts, rest.error)
  }

  /** One tick of the announce loop, given the day count it tests intervals
      against. */
  function Announce(rules: seq<Rule>, d: int, wd: Weekday,
                    channels: map<string, ChannelId>, host: Host): TickReport {
    AnnounceFrom(rules, 0, d, wd, channels, host)
  }

  /** Sending a list of dispatches in order, stopping at the first send that
      raises. */
  function Perform(ds: seq<Dispatch>, channels: map<string, ChannelId>, host: Host): (t: TickReport)
    ensures t.error.None? <==> forall k :: 0 <= k < |ds| ==> Send(channels, host, ds[k].request).error.None?
    ensures t.error.Some? ==> t.error.value.SendRaised?
    ensures t.error.Some? ==>
              exists k :: 0 <= k < |ds| && ds[k].rule == t.error.value.rule &&
                          Send(channels, host, ds[k].request).error == Some(t.error.value.error) &&
                          (forall k' :: 0 <= k' < k ==> Send(channels, host, ds[k'].request).error.None?)
    ensures |t.attempts| <= 2 * |ds|
    decreases |ds|
  {
    if |ds| == 0 then TickReport([], None)
    else
      var s := Send(channels, host, ds[0].request);
      if s.error.Some? then TickReport(s.attempts, Some(SendRaised(ds[0].rule, s.error.value)))
      else
        var rest := Perform(ds[1..], channels, host);
        assert forall k :: 1 <= k < |ds| ==> ds[k] == ds[1..][k - 1];
        TickReport(s.attempts + rest.attempts, rest.error)
  }

  /** The reference reading of a tick: evaluate every rule first, then send
      what is due; a send that raises wins over a later evaluation error. */
  function EvaluateThenSend(p: Plan, channels: map<string, ChannelId>, host: Host): TickReport {
    var sent := Perform(p.dispatches, channels, host);
    if sent.error.Some? then sent
    else TickReport(sent.attempts, if p.halt.Some? then Some(RuleRaised(p.halt.value)) else None)
  }

  /** Sending a non-empty list: the first send, then the rest only when it
      returns normally. */
  lemma PerformCons(x: Dispatch, ds: seq<Dispatch>, channels: map<string, ChannelId>, host: Host)
    ensures var s := Send(channels, host, x.request);
            Perform([x] + ds, channels, host) ==
            if s.error.Some? then TickReport(s.attempts, Some(SendRaised(x.rule, s.error.value)))
            else TickReport(s.attempts + Perform(ds, channels, host).attempts, Perform(ds, channels, host).error)
  {
    assert ([x] + ds)[0] == x;
    assert ([x] + ds)[1..] == ds;
  }

  /** Sending `xs + ys` sends all of `xs` first, in order, and reaches `ys`
      only when no send of `xs` raised. */
  lemma {:induction false} PerformAppend(xs: seq<Dispatch>, ys: seq<Dispatch>,
                                         channels: map<string, ChannelId>, host: Host)
    ensures var first := Perform(xs, channels, host);
            var second := Perform(ys, channels, host);
            Perform(xs + ys, channels, host) ==
            if first.error.Some? then first
            else TickReport(first.attempts + second.attempts, second.error)
    decreases |xs|
  {
    if |xs| == 0 {
      assert xs + ys == ys;
    } else {
      var x := xs[0];
      var tail := xs[1..];
      assert xs == [x] + tail;
      assert xs + ys == [x] + (tail + ys);
      PerformCons(x, tail, channels, host);
      PerformCons(x, tail + ys, channels, host);
      PerformAppend(tail, ys, channels, host);
      PerformAppendStep(Send(channels, host, x.request), Perform(tail, channels, host),
                        Perform(ys, channels, host), Perform(tail + ys, channels, host),
                        Perform(xs, channels, host), Perform(xs + ys, channels, host), x.rule);
    }
  }

  /** The bookkeeping of one step of `PerformAppend`: `s` is the first send,
      `t`, `u` and `tu` the reports for the rest of `xs`, for `ys` and for
      both, `whole` and `all` those for `xs` and for `xs + ys`. */
  lemma PerformAppendStep(s: SendReport, t: TickReport, u: TickReport, tu: TickReport,
                          whole: TickReport, all: TickReport, rule: nat)
    requires tu == if t.error.Some? then t else TickReport(t.attempts + u.attempts, u.error)
    requires whole == if s.error.Some? then TickReport(s.attempts, Some(SendRaised(rule, s.error.value)))
                      else TickReport(s.attempts + t.attempts, t.error)
    requires all == if s.error.Some? then TickReport(s.attempts, Some(SendRaised(rule, s.error.value)))
                    else TickReport(s.attempts + tu.attempts, tu.error)
    ensures all == if whole.error.Some? then whole else TickReport(whole.attempts + u.attempts, u.error)
  {
    if s.error.None? && t.error.None? {
      assert s.attempts + (t.attempts + u.attempts) == (s.attempts + t.attempts) + u.attempts;
    }
  }

  /** One step of `AnnounceFromIsEvaluateThenSend` for a rule that is due:
      its send comes first, and the rest of the tick follows only when it
      returns normally. */
  lemma DueRuleStep(rules: seq<Rule>, i: nat, d: int, wd: Weekday,
                    channels: map<string, ChannelId>, host: Host)
    requires i < |rules| && Decide(rules[i], d, wd) == Success(true)
    requires AnnounceFrom(rules, i + 1, d, wd, channels, host) ==
             EvaluateThenSend(EvaluateFrom(rules, i + 1, d, wd), channels, host)
    ensures AnnounceFrom(rules, i, d, wd, channels, host) ==
            EvaluateThenSend(EvaluateFrom(rules, i, d, wd), channels, host)
  {
    var rest := EvaluateFrom(rules, i + 1, d, wd);
    var x := Dispatch(i, RequestOf(rules[i]));
    assert EvaluateFrom(rules, i, d, wd) == Plan([x] + rest.dispatches, rest.halt);
    PerformCons(x, rest.dispatches, channels, host);
  }

  /** Sending does not influence evaluation, so the interleaved loop makes
      exactly the calls, and ends with exactly the exception, of evaluating
      the whole pass first and sending afterwards. */
  lemma {:induction false} AnnounceFromIsEvaluateThenSend(rules: seq<Rule>, i: nat, d: int, wd: Weekday,
                                                         channels: map<string, ChannelId>, host: Host)
    requires i <= |rules|
    ensures AnnounceFrom(rules, i, d, wd, channels, host) ==
            EvaluateThenSend(EvaluateFrom(rules, i, d, wd), channels, host)
    decreases |rules| - i
  {
    if i < |rules| {
      match Decide(rules[i], d, wd)
      case Failure(e) =>
        assert EvaluateFrom(rules, i, d, wd) == Plan([], Some(Halt(i, e)));
        assert Perform([], channels, host) == TickReport([], None);
      case Success(fire) =>
        AnnounceFromIsEvaluateThenSend(rules, i + 1, d, wd, channels, host);
        if !fire {
          assert EvaluateFrom(rules, i, d, wd) == EvaluateFrom(rules, i + 1, d, wd);
        } else {
          DueRuleStep(rules, i, d, wd, channels, host);
        }
    }
  }

  lemma AnnounceIsEvaluateThenSend(rules: seq<Rule>, d: int, wd: Weekday,
                                   channels: map<string, ChannelId>, host: Host)
    ensures Announce(rules, d, wd, channels, host) == EvaluateThenSend(Evaluate(rules, d, wd), channels, host)
  {
    AnnounceFromIsEvaluateThenSend(rules, 0, d, wd, channels, host);
  }

  /* ---------------------------------------------------------------------- */
  /* The tick as written: the day count pinned to 6                          */
  /* ---------------------------------------------------------------------- */

  /** One tick as the loop is written: the days since the epoch are computed
      and then discarded in favour of `PinnedDay`. */
  function AnnounceAsWritten(rules: seq<Rule>, daysSinceEpoch: int, wd: Weekday,
                             channels: map<string, ChannelId>, host: Host): (t: TickReport)
    ensures t == EvaluateThenSend(Evaluate(rules, PinnedDay, wd), channels, host)
  {
    AnnounceIsEvaluateThenSend(rules, PinnedDay, wd, channels, host);
    Announce(rules, PinnedDay, wd, channels, host)
  }

  /** As written, the date plays no part in interval rules: any two dates with
      the same weekday give the same tick. */
  lemma AsWrittenIgnoresDate(rules: seq<Rule>, d1: int, d2: int, wd: Weekday,
                             channels: map<string, ChannelId>, host: Host)
    ensures AnnounceAsWritten(rules, d1, wd, channels, host) == AnnounceAsWritten(rules, d2, wd, channels, host)
  {
  }

  /** As written, a weekly interval rule (7 does not divide 6) sends nothing on
      any date at all. */
  lemma WeeklyRuleSilentAsWritten(r: Rule, daysSinceEpoch: int, wd: Weekday,
                                  channels: map<string, ChannelId>, host: Host)
    requires r.interval == Int(7)
    ensures AnnounceAsWritten([r], daysSinceEpoch, wd, channels, host) == TickReport([], None)
  {
    assert FloorMod(PinnedDay, 7) == 6;
    assert Decide(r, PinnedDay, wd) == Success(false);
    assert AnnounceFrom([r], 1, PinnedDay, wd, channels, host) == TickReport([], None);
  }

  /** With the real day count, a weekly interval rule that resolves to a
      working channel sends its message and link exactly on the days divisible
      by 7, and nothing on the others. */
  lemma WeeklyRuleFiresEverySeventhDay(r: Rule, d: int, wd: Weekday,
                                       channels: map<string, ChannelId>, host: Host)
    requires r.interval == Int(7)
    requires r.channel in channels && channels[r.channel] in host.visible
    requires host.deliver(channels[r.channel], r.message) == Delivered
    requires host.deliver(channels[r.channel], r.link) == Delivered
    ensures Divides(7, d) ==>
              Announce([r], d, wd, channels, host) ==
              TickReport([Attempt(channels[r.channel], r.message), Attempt(channels[r.channel], r.link)], None)
    ensures !Divides(7, d) ==> Announce([r], d, wd, channels, host) == TickReport([], None)
  {
    IntervalFiresIffDivides(r, d, wd, 7);
    var rules := [r];
    var t := Announce(rules, d, wd, channels, host);
    assert rules[0] == r;
    assert t == AnnounceFrom(rules, 0, d, wd, channels, host);
    var after := AnnounceFrom(rules, 1, d, wd, channels, host);
    assert after == TickReport([], None);
    if Divides(7, d) {
      assert Decide(r, d, wd) == Success(true);
      var c := channels[r.channel];
      assert Resolve(channels, host, r.channel) == Some(c);
      var s := Send(channels, host, RequestOf(r));
      assert s == SendReport([Attempt(c, r.message), Attempt(c, r.link)], None);
      assert t == TickReport(s.attempts + after.attempts, after.error);
      assert s.attempts + after.attempts == s.attempts;
    } else {
      assert Decide(r, d, wd) == Success(false);
      assert t == after;
    }
  }
}

=== FILE: language.dfy ===
/** The swear filter: the word list loaded from a text file and the check
    made on every incoming message. */
module Language {
  import opened PyValues

  /** The reply sent for every listed word found in a message. */
  const Warning: string := "https://tenor.com/view/captain-america-marvel-avengers-gif-14328153"

  /** The word list: the file's contents cut at every newline, nothing
      trimmed or dropped. */
  function LoadSwears(content: string): (words: seq<string>)
    ensures |words| == multiset(content)['\n'] + 1
    ensures forall k :: 0 <= k < |words| ==> '\n' !in words[k]
    ensures Join(words, '\n') == content
  {
    JoinSplit(content, '\n');
    SplitCount(content, '\n');
    Split(content, '\n')
  }

  /** Positions of the tokens that are, exactly and case-sensitively, words of
      the list. */
  ghost function Matches(tokens: seq<string>, words: seq<string>): set<nat> {
    set i: nat | i < |tokens| && tokens[i] in words
  }

  /** The replies sent for a token sequence: one per matching token, with no
      early exit. */
  function Replies(tokens: seq<string>, words: seq<string>): (out: seq<string>)
    ensures forall k :: 0 <= k < |out| ==> out[k] == Warning
    ensures |out| == |Matches(tokens, words)|
    ensures |out| <= |tokens|
    decreases |tokens|
  {
    if |tokens| == 0 then []
    else
      var n := |tokens| - 1;
      var prev := Replies(tokens[..n], words);
      assert Matches(tokens, words) ==
             Matches(tokens[..n], words) + (if tokens[n] in words then {n} else {});
      prev + (if tokens[n] in words then [Warning] else [])
  }

  /** The reaction to one message: its text is split on single spaces, and
      each piece is looked up as it is. */
  function OnMessage(content: string, words: seq<string>): (out: seq<string>)
    ensures forall k :: 0 <= k < |out| ==> out[k] == Warning
    ensures |out| == |Matches(Split(content, ' '), words)|
    ensures |out| <= multiset(content)[' '] + 1
  {
    SplitCount(content, ' ');
    Replies(Split(content, ' '), words)
  }

  /* ---------------------------------------------------------------------- */
  /* When does a split produce an empty piece?                               */
  /* ---------------------------------------------------------------------- */

  /** `s` ends with `c`, or holds two `c` in a row. */
  predicate EndsOrDoubles(s: string, c: char) {
    (|s| >= 1 && s[|s| - 1] == c) || exists i :: 0 <= i < |s| - 1 && s[i] == c && s[i + 1] == c
  }

  /** The first piece is empty iff the text is empty or starts with the
      separator. */
  lemma FirstPieceEmptyIff(s: string, c: char)
    ensures Split(s, c)[0] == "" <==> |s| == 0 || s[0] == c
  {
  }

  /** Some piece after the first is empty. */
  predicate LaterPieceEmpty(pieces: seq<string>) {
    exists k :: 1 <= k < |pieces| && pieces[k] == ""
  }

  /** Some piece after the first is empty iff `s` ends with the separator or
      holds two separators in a row. */
  lemma {:induction false} LaterPieceEmptyIff(s: string, c: char)
    ensures LaterPieceEmpty(Split(s, c)) <==> EndsOrDoubles(s, c)
    decreases |s|
  {
    if |s| > 0 {
      LaterPieceEmptyIff(s[1..], c);
      if s[0] == c {
        StepAtSeparator(s, c);
      } else {
        StepAtOther(s, c);
      }
    }
  }

  /** The inductive step when the text starts with the separator: the later
      pieces are all the pieces of the rest. */
  lemma StepAtSeparator(s: string, c: char)
    requires |s| > 0 && s[0] == c
    requires LaterPieceEmpty(Split(s[1..], c)) <==> EndsOrDoubles(s[1..], c)
    ensures LaterPieceEmpty(Split(s, c)) <==> EndsOrDoubles(s, c)
  {
    var t := s[1..];
    var rest := Split(t, c);
    var pieces := Split(s, c);
    assert pieces == [""] + rest;
    FirstPieceEmptyIff(t, c);
    if EndsOrDoubles(s, c) {
      if |t| == 0 || t[0] == c {
        assert pieces[1] == "";
      } else {
        if s[|s| - 1] != c {
          var i :| 0 <= i < |s| - 1 && s[i] == c && s[i + 1] == c;
          assert t[i - 1] == c && t[i] == c;
        } else {
          assert t[|t| - 1] == c;
        }
        var k :| 1 <= k < |rest| && rest[k] == "";
        assert pieces[k + 1] == "";
      }
    }
    if LaterPieceEmpty(pieces) {
      var k :| 1 <= k < |pieces| && pieces[k] == "";
      if |t| == 0 {
      } else if t[0] == c {
        assert s[0] == c && s[1] == c;
      } else {
        assert k != 1;
        assert rest[k - 1] == "";
        assert EndsOrDoubles(t, c);
        if t[|t| - 1] != c {
          var i :| 0 <= i < |t| - 1 && t[i] == c && t[i + 1] == c;
          assert s[i + 1] == c && s[i + 2] == c;
        }
      }
    }
  }

  /** The inductive step when the text starts with another character: the
      later pieces are the later pieces of the rest. */
  lemma StepAtOther(s: string, c: char)
    requires |s| > 0 && s[0] != c
    requires LaterPieceEmpty(Split(s[1..], c)) <==> EndsOrDoubles(s[1..], c)
    ensures LaterPieceEmpty(Split(s, c)) <==> EndsOrDoubles(s, c)
  {
    LaterPiecesAfterOther(s, c);
    EndsOrDoublesAfterOther(s, c);
  }

  /** A leading character other than the separator only lengthens the first
      piece. */
  lemma LaterPiecesAfterOther(s: string, c: char)
    requires |s| > 0 && s[0] != c
    ensures LaterPieceEmpty(Split(s, c)) <==> LaterPieceEmpty(Split(s[1..], c))
  {
    var rest := Split(s[1..], c);
    var pieces := Split(s, c);
    assert pieces == [[s[0]] + rest[0]] + rest[1..];
    if LaterPieceEmpty(rest) {
      var k :| 1 <= k < |rest| && rest[k] == "";
      assert pieces[k] == "";
    }
    if LaterPieceEmpty(pieces) {
      var k :| 1 <= k < |pieces| && pieces[k] == "";
      assert rest[k] == "";
    }
  }

  /** A leading character other than the separator neither ends the text nor
      starts a double separator. */
  lemma EndsOrDoublesAfterOther(s: string, c: char)
    requires |s| > 0 && s[0] != c
    ensures EndsOrDoubles(s, c) <==> EndsOrDoubles(s[1..], c)
  {
    var t := s[1..];
    if EndsOrDoubles(s, c) && s[|s| - 1] != c {
      var i :| 0 <= i < |s| - 1 && s[i] == c && s[i + 1] == c;
      assert t[i - 1] == c && t[i] == c;
    }
    if EndsOrDoubles(t, c) && t[|t| - 1] != c {
      var i :| 0 <= i < |t| - 1 && t[i] == c && t[i + 1] == c;
      assert s[i + 1] == c && s[i + 2] == c;
    }
  }

  /** Splitting gives an empty piece iff the text is empty, starts or ends
      with the separator, or holds two separators in a row. */
  lemma EmptyPieceIff(s: string, c: char)
    ensures "" in Split(s, c) <==> |s| == 0 || s[0] == c || EndsOrDoubles(s, c)
  {
    LaterPieceEmptyIff(s, c);
    var pieces := Split(s, c);
    FirstPieceEmptyIff(s, c);
    if |s| > 0 && s[0] != c {
      if LaterPieceEmpty(pieces) {
        var k :| 1 <= k < |pieces| && pieces[k] == "";
        assert "" in pieces;
      }
      if "" in pieces {
        var k :| 0 <= k < |pieces| && pieces[k] == "";
        assert k >= 1;
      }
    }
  }

  /* ---------------------------------------------------------------------- */
  /* Splitting a message around one space                                    */
  /* ---------------------------------------------------------------------- */

  /** The inductive step of `SplitAtSeparator` when the text starts with the
      separator: it adds an empty first piece on both sides. */
  lemma SplitAtSeparatorSepStep(c: char, rest: string, sep: char, b: string)
    requires c == sep
    requires Split(rest + [sep] + b, sep) == Split(rest, sep) + Split(b, sep)
    ensures Split([c] + rest + [sep] + b, sep) == Split([c] + rest, sep) + Split(b, sep)
  {
    var x := rest + [sep] + b;
    assert [c] + rest + [sep] + b == [c] + x;
    SplitCons(c, x, sep);
    SplitCons(c, rest, sep);
  }

  /** The inductive step of `SplitAtSeparator` when the text starts with
      another character: it joins the first piece on both sides. */
  lemma SplitAtSeparatorCharStep(c: char, rest: string, sep: char, b: string)
    requires c != sep
    requires Split(rest + [sep] + b, sep) == Split(rest, sep) + Split(b, sep)
    ensures Split([c] + rest + [sep] + b, sep) == Split([c] + rest, sep) + Split(b, sep)
  {
    var x := rest + [sep] + b;
    var left := Split(rest, sep);
    var right := Split(b, sep);
    calc {
      Split([c] + rest + [sep] + b, sep);
    == { assert [c] + rest + [sep] + b == [c] + x; }
      Split([c] + x, sep);
    == { SplitCons(c, x, sep); }
      [[c] + (left + right)[0]] + (left + right)[1..];
    == { assert (left + right)[0] == left[0]; ReplaceHead([c] + left[0], left, right); }
      ([[c] + left[0]] + left[1..]) + right;
    == { SplitCons(c, rest, sep); }
      Split([c] + rest, sep) + right;
    }
  }

  /** Re-attaching a new head to `l + r` is re-attaching it to `l`, then
      appending `r`. */
  lemma ReplaceHead<T>(h: T, l: seq<T>, r: seq<T>)
    requires |l| >= 1
    ensures [h] + (l + r)[1..] == ([h] + l[1..]) + r
  {
    assert (l + r)[1..] == l[1..] + r;
  }

  /** Text on either side of a separator splits independently: the pieces of
      `a + [sep] + b` are the pieces of `a` followed by the pieces of `b`. */
  lemma {:induction false} SplitAtSeparator(a: string, sep: char, b: string)
    ensures Split(a + [sep] + b, sep) == Split(a, sep) + Split(b, sep)
    decreases |a|
  {
    if |a| == 0 {
      assert a + [sep] + b == [sep] + b;
      SplitCons(sep, b, sep);
    } else {
      SplitAtSeparator(a[1..], sep, b);
      if a[0] == sep {
        SplitAtSeparatorSepStep(a[0], a[1..], sep, b);
      } else {
        SplitAtSeparatorCharStep(a[0], a[1..], sep, b);
      }
      assert a == [a[0]] + a[1..];
    }
  }

  /* ---------------------------------------------------------------------- */
  /* What the filter does and does not do                                    */
  /* ---------------------------------------------------------------------- */

  /** The replies to `x + y` are the replies to `x`, then those to `y`. */
  lemma {:induction false} RepliesConcat(x: seq<string>, y: seq<string>, words: seq<string>)
    ensures Replies(x + y, words) == Replies(x, words) + Replies(y, words)
    decreases |y|
  {
    if |y| > 0 {
      var n := |y| - 1;
      RepliesConcat(x, y[..n], words);
      assert (x + y)[..|x + y| - 1] == x + y[..n];
      assert (x + y)[|x + y| - 1] == y[n];
    } else {
      assert x + y == x;
    }
  }

  /** The tokens of two texts joined by a space are checked independently:
      there is no early exit, and every matching token of both halves gets its
      own reply. */
  lemma MessageConcat(a: string, b: string, words: seq<string>)
    ensures OnMessage(a + " " + b, words) == OnMessage(a, words) + OnMessage(b, words)
  {
    SplitAtSeparator(a, ' ', b);
    RepliesConcat(Split(a, ' '), Split(b, ' '), words);
  }

  /** A single token draws a reply iff it is literally a word of the list:
      no lower-casing and no stripping of punctuation. */
  lemma SingleToken(w: string, words: seq<string>)
    requires ' ' !in w
    ensures OnMessage(w, words) == (if w in words then [Warning] else [])
  {
    SplitNoSeparator(w, ' ');
    assert [w][..0] == [];
  }

  /** Three texts joined by spaces are answered one after the other. */
  lemma ThreeTexts(a: string, b: string, c: string, words: seq<string>)
    ensures OnMessage(a + " " + b + " " + c, words) ==
            OnMessage(a, words) + OnMessage(b, words) + OnMessage(c, words)
  {
    MessageConcat(a, b, words);
    MessageConcat(a + " " + b, c, words);
  }

  /** A listed word that occurs twice is answered twice, and an unlisted
      token before the occurrences changes nothing. */
  lemma RepeatedWordAnsweredEachTime(other: string, w: string, words: seq<string>)
    requires ' ' !in other && ' ' !in w
    requires other !in words && w in words
    ensures OnMessage(other + " " + w + " " + w, words) == [Warning, Warning]
  {
    ThreeTexts(other, w, w, words);
    SingleToken(other, words);
    SingleToken(w, words);
  }

  /** A case variant of a listed word, or the word with punctuation attached,
      is a different string and draws no reply: "BAD!!" is not "bad". */
  lemma NoNormalisation(words: seq<string>)
    requires words == ["bad"]
    ensures OnMessage("BAD!!", words) == []
    ensures OnMessage("bad", words) == [Warning]
  {
    SingleToken("BAD!!", words);
    SingleToken("bad", words);
  }

  /** A word file that ends with a newline lists the empty word. */
  lemma TrailingNewlineListsEmptyWord(content: string)
    requires |content| >= 1 && content[|content| - 1] == '\n'
    ensures "" in LoadSwears(content)
  {
    EmptyPieceIff(content, '\n');
  }

  /** Once the empty word is listed, a message that is empty, starts or ends
      with a space, or holds two spaces in a row draws at least one reply,
      even when none of its words is listed. */
  lemma EmptyWordMatchesGaps(msg: string, words: seq<string>)
    requires "" in words
    requires |msg| == 0 || msg[0] == ' ' || EndsOrDoubles(msg, ' ')
    ensures |OnMessage(msg, words)| >= 1
  {
    var tokens := Split(msg, ' ');
    EmptyPieceIff(msg, ' ');
    var k :| 0 <= k < |tokens| && tokens[k] == "";
    assert k in Matches(tokens, words);
  }

  /** The word list loaded from a newline-terminated file answers a message
      with two spaces in a row. */
  lemma TrailingNewlineFlagsDoubleSpace(content: string, msg: string, i: nat)
    requires |content| >= 1 && content[|content| - 1] == '\n'
    requires i + 1 < |msg| && msg[i] == ' ' && msg[i + 1] == ' '
    ensures |OnMessage(msg, LoadSwears(content))| >= 1
  {
    TrailingNewlineListsEmptyWord(content);
    assert EndsOrDoubles(msg, ' ');
    EmptyWordMatchesGaps(msg, LoadSwears(content));
  }

  /* ---------------------------------------------------------------------- */
  /* A word list without blank lines                                         */
  /* ---------------------------------------------------------------------- */

  /** The list without its empty entries. */
  function DropBlank(ws: seq<string>): (out: seq<string>)
    ensures forall w :: w in out <==> w in ws && w != ""
    ensures |out| <= |ws|
    decreases |ws|
  {
    if |ws| == 0 then []
    else (if ws[0] == "" then [] else [ws[0]]) + DropBlank(ws[1..])
  }

  /** The loader with blank lines skipped, so that a newline at the end of the
      file (or an empty line inside it) adds no word. */
  function LoadSwearsSkippingBlank(content: string): (words: seq<string>)
    ensures "" !in words
    ensures forall w :: w in words <==> w in LoadSwears(content) && w != ""
  {
    DropBlank(LoadSwears(content))
  }

  /** With blank lines skipped, a message draws exactly one reply per
      non-empty token that is a line of the file; runs of spaces draw none. */
  lemma SkippingBlankAnswersOnlyWords(msg: string, content: string)
    ensures |OnMessage(msg, LoadSwearsSkippingBlank(content))| ==
            |set i: nat | i < |Split(msg, ' ')| && Split(msg, ' ')[i] != "" && Split(msg, ' ')[i] in LoadSwears(content)|
  {
    var tokens := Split(msg, ' ');
    assert Matches(tokens, LoadSwearsSkippingBlank(content)) ==
           set i: nat | i < |tokens| && tokens[i] != "" && tokens[i] in LoadSwears(content);
  }
}

=== FILE: pyvalues.dfy ===
/** The slice of Python's built-in semantics the bot relies on: `int(x)` on a
    configuration scalar, `x == k` between a scalar and an int, the floor
    modulo `%`, and `str.split` with an explicit one-character separator. */
module PyValues {
  import opened Wrappers

  /* ---------------------------------------------------------------------- */
  /* Floor modulo                                                            */
  /* ---------------------------------------------------------------------- */

  /** `k` divides `d` in the ordinary sense of the integers. */
  ghost predicate Divides(k: int, d: int) {
    exists q :: d == k * q
  }

  /** Python's `d % k`: the remainder carries the sign of the divisor (Dafny's
      own `%` is Euclidean and never negative). `k == 0` raises in Python, so
      it is excluded here and handled by the caller as an error. */
  function FloorMod(d: int, k: int): (r: int)
    requires k != 0
    ensures k > 0 ==> 0 <= r < k
    ensures k < 0 ==> k < r <= 0
    ensures Divides(k, d - r)
  {
    var e := d % k;
    if k > 0 || e == 0 then
      assert d - e == k * (d / k);
      e
    else
      assert d - (e + k) == k * (d / k - 1);
      e + k
  }

  /** If a multiple of `k` lies strictly between `-|k|` and `|k|`, it is zero. */
  lemma SmallMultipleIsZero(k: int, m: int)
    requires k != 0
    requires -(if k < 0 then -k else k) < k * m < (if k < 0 then -k else k)
    ensures m == 0
  {
  }

  /** The test `d % k == 0` of a Python program means exactly "k divides d",
      for negative divisors and negative days alike. */
  lemma FloorModZeroIffDivides(d: int, k: int)
    requires k != 0
    ensures FloorMod(d, k) == 0 <==> Divides(k, d)
  {
    if FloorMod(d, k) == 0 {
      assert d == k * (d / k);
    }
    if Divides(k, d) {
      var q :| d == k * q;
      var r := FloorMod(d, k);
      var p :| d - r == k * p;
      assert k * (q - p) == r by {
        assert k * (q - p) == k * q - k * p;
      }
      SmallMultipleIsZero(k, q - p);
    }
  }

  /* ---------------------------------------------------------------------- */
  /* Configuration scalars                                                   */
  /* ---------------------------------------------------------------------- */

  /** A scalar as a YAML loader hands it over: an integer, a boolean or a
      string. */
  datatype Scalar = Int(n: int) | Bool(b: bool) | Text(s: string)

  function DigitValue(c: char): (v: nat)
    requires '0' <= c <= '9'
    ensures v < 10
  {
    (c as int) - ('0' as int)
  }

  function DigitChar(v: nat): (c: char)
    requires v < 10
    ensures '0' <= c <= '9' && DigitValue(c) == v
  {
    (('0' as int) + v) as char
  }

  predicate AllDigits(s: string) {
    forall i :: 0 <= i < |s| ==> '0' <= s[i] <= '9'
  }

  /** The value of a run of decimal digits, most significant first. */
  function DigitsValue(s: string): (v: nat)
    requires AllDigits(s)
    decreases |s|
  {
    if |s| == 0 then 0
    else DigitsValue(s[..|s| - 1]) * 10 + DigitValue(s[|s| - 1])
  }

  /** `str(n)` for a natural number: its decimal digits, no leading zero. */
  function ShowNat(n: nat): (s: string)
    ensures |s| >= 1 && AllDigits(s)
    ensures |s| > 1 ==> s[0] != '0'
  {
    if n < 10 then [DigitChar(n)]
    else ShowNat(n / 10) + [DigitChar(n % 10)]
  }

  /** `str(n)` for any integer. */
  function ShowInt(n: int): (s: string)
    ensures |s| >= 1
    ensures (s[0] == '-') <==> n < 0
  {
    if n < 0 then "-" + ShowNat(-n) else ShowNat(n)
  }

  /** `int(s)` on a string: an optional sign followed by one or more ASCII
      digits; anything else raises ValueError, modelled as None. */
  function ParseInt(s: string): (r: Option<int>)
    ensures r.Some? <==> |s| >= 1 && AllDigits(s[1..]) && ('0' <= s[0] <= '9' || (s[0] in "+-" && |s| >= 2))
    ensures r.Some? && r.value < 0 ==> s[0] == '-'
  {
    if |s| >= 1 && (s[0] == '-' || s[0] == '+') then
      var body := s[1..];
      if |body| >= 1 && AllDigits(body) then
        var magnitude: int := DigitsValue(body);
        var v := if s[0] == '-' then -magnitude else magnitude;
        Some(v)
      else None
    else if |s| >= 1 && AllDigits(s) then Some(DigitsValue(s))
    else None
  }

  lemma {:induction false} ShowNatRoundTrip(n: nat)
    ensures DigitsValue(ShowNat(n)) == n
  {
    if n >= 10 {
      var s := ShowNat(n);
      assert s[..|s| - 1] == ShowNat(n / 10);
      ShowNatRoundTrip(n / 10);
    }
  }

  /** `int(str(n)) == n`: the parser reads back every integer Python prints. */
  lemma ParseShowRoundTrip(n: int)
    ensures ParseInt(ShowInt(n)) == Some(n)
  {
    if n < 0 {
      ShowNatRoundTrip(-n);
      ParseOptionallySigned(ShowNat(-n));
    } else {
      ShowNatRoundTrip(n);
      ParseDigits(ShowNat(n));
    }
  }

  /** A run of zeros is worth nothing. */
  lemma {:induction false} ZerosValue(z: string)
    requires forall i :: 0 <= i < |z| ==> z[i] == '0'
    ensures AllDigits(z) && DigitsValue(z) == 0
    decreases |z|
  {
    if |z| > 0 {
      ZerosValue(z[..|z| - 1]);
    }
  }

  /** Leading zeros do not change the value of a run of digits. */
  lemma {:induction false} LeadingZerosIgnored(z: string, s: string)
    requires forall i :: 0 <= i < |z| ==> z[i] == '0'
    requires AllDigits(s)
    ensures AllDigits(z + s) && DigitsValue(z + s) == DigitsValue(s)
    decreases |s|
  {
    if |s| == 0 {
      assert z + s == z;
      ZerosValue(z);
    } else {
      var t := z + s;
      assert t[..|t| - 1] == z + s[..|s| - 1];
      assert t[|t| - 1] == s[|s| - 1];
      LeadingZerosIgnored(z, s[..|s| - 1]);
    }
  }

  /** `int()` also reads text Python would not print: leading zeros and an
      explicit sign, so `int("007") == 7`, `int("+7") == 7` and
      `int("-0") == 0`. */
  lemma ParsePaddedText(z: string, n: nat)
    requires forall i :: 0 <= i < |z| ==> z[i] == '0'
    ensures ParseInt(z + ShowNat(n)) == Some(n)
    ensures ParseInt("+" + z + ShowNat(n)) == Some(n)
    ensures ParseInt("-" + z + ShowNat(n)) == Some(-(n as int))
  {
    var digits := z + ShowNat(n);
    LeadingZerosIgnored(z, ShowNat(n));
    ShowNatRoundTrip(n);
    ParseOptionallySigned(digits);
    assert "+" + z + ShowNat(n) == "+" + digits;
    assert "-" + z + ShowNat(n) == "-" + digits;
  }

  /** A run of digits reads as its value with no sign or a plus, and as its
      negation after a minus. */
  lemma ParseOptionallySigned(digits: string)
    requires |digits| >= 1 && AllDigits(digits)
    ensures ParseInt(digits) == Some(DigitsValue(digits))
    ensures ParseInt("+" + digits) == Some(DigitsValue(digits))
    ensures ParseInt("-" + digits) == Some(-(DigitsValue(digits) as int))
  {
    ParseDigits(digits);
    ParseSignedDigits('+', digits);
    ParseSignedDigits('-', digits);
  }

  lemma ParseSignedDigits(sign: char, digits: string)
    requires sign == '+' || sign == '-'
    requires |digits| >= 1 && AllDigits(digits)
    ensures var magnitude: int := DigitsValue(digits);
            ParseInt([sign] + digits) == Some(if sign == '-' then -magnitude else magnitude)
  {
    var s := [sign] + digits;
    assert s[1..] == digits;
    ParseSigned(s);
  }

  /** Unsigned text is read as its digits' value. */
  lemma ParseDigits(digits: string)
    requires |digits| >= 1 && AllDigits(digits)
    ensures ParseInt(digits) == Some(DigitsValue(digits))
  {
    assert '0' <= digits[0] <= '9';
  }

  /** Signed text is read as its digits' value, negated after a minus. */
  lemma ParseSigned(s: string)
    requires |s| >= 2 && (s[0] == '+' || s[0] == '-') && AllDigits(s[1..])
    ensures var magnitude: int := DigitsValue(s[1..]);
            ParseInt(s) == Some(if s[0] == '-' then -magnitude else magnitude)
  {
  }

  /** Python's `int(x)` on a configuration scalar. Booleans are integers in
      Python (`int(True) == 1`); an unparsable string raises, modelled as None. */
  function ToInt(x: Scalar): Option<int>
  {
    match x
    case Int(n) => Some(n)
    case Bool(b) => Some(if b then 1 else 0)
    case Text(s) => ParseInt(s)
  }

  /** Python's `k == x` for an int `k` and the RAW scalar `x`, without any
      `int()` conversion: a string never equals an int, a boolean equals 0 or 1.
      Raw equality is the stricter test: whatever it accepts, `int()` reads as
      the same number. */
  predicate EqualsInt(x: Scalar, k: int)
    ensures EqualsInt(x, k) ==> ToInt(x) == Some(k)
  {
    match x
    case Int(n) => n == k
    case Bool(b) => k == (if b then 1 else 0)
    case Text(_) => false
  }

  /** A string field holding a printed integer is read back by `int()` as
      that integer. */
  lemma ToIntReadsPrintedText(n: int)
    ensures ToInt(Text(ShowInt(n))) == Some(n)
  {
    ParseShowRoundTrip(n);
  }

  /** Raw equality agrees with `int()` conversion on ints and booleans, and on
      strings it never holds, even when `int()` would succeed. */
  lemma EqualsIntVersusToInt(x: Scalar, k: int)
    ensures !x.Text? ==> (EqualsInt(x, k) <==> ToInt(x) == Some(k))
    ensures x.Text? ==> !EqualsInt(x, k)
  {
  }

  /* ---------------------------------------------------------------------- */
  /* str.split with an explicit separator                                    */
  /* ---------------------------------------------------------------------- */

  /** Python's `s.split(sep)` for a one-character separator: every occurrence
      of `sep` cuts, so adjacent separators give empty pieces, and the result
      always has one more piece than `s` has separators. */
  function Split(s: string, sep: char): (parts: seq<string>)
    ensures |parts| >= 1
    ensures forall k :: 0 <= k < |parts| ==> sep !in parts[k]
    decreases |s|
  {
    if |s| == 0 then [""]
    else
      var rest := Split(s[1..], sep);
      if s[0] == sep then [""] + rest
      else [[s[0]] + rest[0]] + rest[1..]
  }

  /** A split has exactly one more piece than the text has separators. */
  lemma {:induction false} SplitCount(s: string, sep: char)
    ensures |Split(s, sep)| == multiset(s)[sep] + 1
    decreases |s|
  {
    if |s| > 0 {
      SplitCount(s[1..], sep);
      assert s == [s[0]] + s[1..];
    }
  }

  /** Python's `sep.join(parts)`. */
  function Join(parts: seq<string>, sep: char): (s: string)
    decreases |parts|
  {
    if |parts| == 0 then ""
    else if |parts| == 1 then parts[0]
    else parts[0] + [sep] + Join(parts[1..], sep)
  }

  /** Joining the pieces of a split gives back the original text. */
  lemma {:induction false} JoinSplit(s: string, sep: char)
    ensures Join(Split(s, sep), sep) == s
    decreases |s|
  {
    if |s| > 0 {
      var rest := Split(s[1..], sep);
      JoinSplit(s[1..], sep);
      if s[0] != sep {
        var parts := Split(s, sep);
        if |rest| == 1 {
          assert parts == [[s[0]] + rest[0]];
        } else {
          assert parts[1..] == rest[1..];
          assert Join(rest, sep) == rest[0] + [sep] + Join(rest[1..], sep);
        }
      } else {
        assert Split(s, sep)[1..] == rest;
      }
    }
  }

  /** A separator-free text splits into itself alone. */
  lemma {:induction false} SplitNoSeparator(p: string, sep: char)
    requires sep !in p
    ensures Split(p, sep) == [p]
    decreases |p|
  {
    if |p| > 0 {
      SplitNoSeparator(p[1..], sep);
      assert [p[0]] + p[1..] == p;
    }
  }

  /** A separator-free piece followed by a separator splits off as the first
      piece, and the rest is split on its own. */
  lemma {:induction false} SplitFirstPiece(p: string, sep: char, t: string)
    requires sep !in p
    ensures Split(p + [sep] + t, sep) == [p] + Split(t, sep)
    decreases |p|
  {
    var s := p + [sep] + t;
    if |p| == 0 {
      assert s[1..] == t;
    } else {
      assert s[1..] == p[1..] + [sep] + t;
      SplitFirstPiece(p[1..], sep, t);
      assert [p[0]] + p[1..] == p;
    }
  }

  /** Splitting a join of separator-free pieces gives back the pieces. */
  lemma {:induction false} SplitJoin(parts: seq<string>, sep: char)
    requires |parts| >= 1
    requires forall k :: 0 <= k < |parts| ==> sep !in parts[k]
    ensures Split(Join(parts, sep), sep) == parts
    decreases |parts|
  {
    if |parts| == 1 {
      SplitNoSeparator(parts[0], sep);
    } else {
      SplitJoin(parts[1..], sep);
      SplitFirstPiece(parts[0], sep, Join(parts[1..], sep));
      assert [parts[0]] + parts[1..] == parts;
    }
  }

  /** One step of the split: the pieces of a text with a known first
      character. */
  lemma SplitCons(c: char, t: string, sep: char)
    ensures Split([c] + t, sep) ==
            if c == sep then [""] + Split(t, sep)
            else [[c] + Split(t, sep)[0]] + Split(t, sep)[1..]
  {
    assert ([c] + t)[1..] == t;
  }
}

=== FILE: wrappers.dfy ===
/** Option and Result: the two failure-carrying shapes the model uses in place
    of Python's None and raised exceptions. */
module Wrappers {

  /** A value that may be missing, as `dict.get` returns one or None. */
  datatype Option<+T> = None | Some(value: T)

  /** The outcome of a step that may raise instead of returning. */
  datatype Result<+R, +E> = Success(value: R) | Failure(error: E)
}
